=== FILE: README.md ===
# Bundling and npm-pack task planning, modelled in Dafny

This project models the planning logic of a set of gulp task factories for
Node.js applications.

- `tasks/bundle.js` builds a self-contained release archive:
  - it stages the sources and a set of *embedded* (bundled) packages under `buildDir/bundle`;
  - it merges the embedded packages' dependencies into the project manifest;
  - it optionally compiles with webpack, adds a runtime binary and a license;
  - it compresses the staging directory into `buildDir/<artifactName>.tar.gz`.
- `tasks/npm.js` prepares an npm package under `buildDir/npm-package`.

The model covers everything these tasks compute before handing work to a foreign library.

| file | module | what it models |
|---|---|---|
| `wrappers.dfy` | `Wrappers` | `Option`/`Result` for absent values and thrown errors |
| `js.dfy` | `Js` | JavaScript truthiness (`x \|\| null`, `x ? a : b`), `${null}` interpolation, path joining |
| `globs.dfy` | `Globs` | `_relativizeGlob`, `_relativizePkgs`, `_pathToPkg` and their inverses |
| `manifests.dfy` | `Manifests` | the package.json record and `_mergeDeps` |
| `externals.dfy` | `Externals` | `_scanPackagesFolder` and the webpack externals object |
| `runsequence.dfy` | `RunSequence` | an abstract "run in order, stop at the first failure" executor |
| `bundle.dfy` | `Bundle` | argument defaulting, the thirteen `bundle:*` stages and their plans, `_checkRuntimeUrl`, the `bundle-webpack` and `bundle` sequences |
| `npm.dfy` | `Npm` | `taskName`, `_fixPackageJsonForNpm`, the output directory, the `npm-pack` sequence |

Modelling choices:

- **Embedded packages** (`bundledPkgs`) are an ordered sequence of (name, patterns), in the object's key order. That order decides which package wins a dependency collision.
- **Installed package manifests** are an input map. A missing name stands for the `readFileSync`/`JSON.parse` throw and becomes `ManifestReadError`. A name mapped to `None` is a manifest without a `dependencies` field.
- **The project manifest and the staged `node_modules` listing** are also inputs (`Bundle.Workspace`).
- **Each stage** is represented by the action it is handed: paths to delete, globs to copy, the manifest to write, the webpack entry and externals, the rename, the download, or the archive.
- **A project manifest without `dependencies`** is modelled as the code behaves, not excluded by a precondition. With no embedded packages the merge succeeds. Otherwise the first iteration reads the package manifest and then throws on `delete pkgInfo.dependencies[pkg]` (`MissingDependencies`).

Behaviour of the code worth knowing, which the model reproduces:

- **Embedded packages can come back.** The loop at tasks/bundle.js:90-94 deletes an embedded package's key right after that package's overlay (line 93). A later embedded package that depends on an earlier one therefore puts the earlier one back into the merged dependencies (`Manifests.MergeDepsReintroducesEarlierPackage`). What does hold is `Manifests.MergeDepsDropsPackage`: the last embedded package is always absent, and so is any package that no later package declares.
- **An unset `postBundleFilter` is empty.** `_relativizeGlob` (tasks/bundle.js:53-64) always returns an array, and arrays are truthy, so the `|| []` at line 151 is never taken. Lodash iterates `undefined` as an empty collection, so the filter resolves to no patterns.
- **The runtime URL comes only from the arguments.** `_checkRuntimeUrl` (tasks/bundle.js:155-159) throws whenever a runtime name is set and no URL is given, and `addRuntime` downloads from exactly the given URL.
- **`addRuntime` always runs.** It is in both sequences (tasks/bundle.js:275 and 289) unconditionally. With no runtime configured it calls `download(null)` and names the file `./null`.
- **Manifest read errors surface late.** `_mergeDeps` reads the embedded packages' manifests inside the `bundle:mergeDeps` task (tasks/bundle.js:184-188). That task runs after `clean`, `preinstallPackages`, `copySources` and `copyBundledPackages` (lines 265-268), and a throw there stops `installDeps` and everything after it (`Bundle.MergeFailureStopsWebpackRun`).
- **`compress` roots every entry at the artifact name.** Line 256 sets every entry's dirname to `path.join(artifactName, dirname)`, so the archive's top-level directory is named after the artifact.
- **Leading `!` in the base.** `_relativizeGlob` and `_relativizePkgs` test only the pattern for a leading `!`. A base directory that itself starts with `!` therefore makes every relativised pattern an exclusion. The marker-preservation contracts are stated for bases that do not start with `!`. That covers the literal `./` base of `copyBundledPackages` and, through `bundleOutputDir`, every `buildDir` that does not start with `!`; the code itself does not constrain `buildDir`.

A manifest is a `Manifests.Manifest`: a record whose named fields (`dependencies`, `devDependencies`, `scripts`) are never also keys of its map of other fields. The subset type makes every function that returns a manifest keep this well-formedness.

## Model

| member | source | states |
|---|---|---|
| Js.OrNull | tasks/bundle.js:146-149 | `x \|\| null` is present exactly when `x` is a non-empty string, and then it is `x` |
| Globs.Scope | tasks/bundle.js:56-61 | a scoped pattern is an exclusion exactly when its input was, and without the marker it is the prefix followed by the input without its marker |
| Globs.ScopeRoundTrip | tasks/bundle.js:56-61 | removing the marker and the prefix, then restoring the marker, gives back the input pattern |
| Globs.ScopeAll | tasks/bundle.js:55-62 | one output per input pattern, in input order, each the scoped input |
| Globs.ScopeAllRoundTrip | tasks/bundle.js:55-62 | element-wise unscoping recovers the whole pattern list |
| Globs.RelativizeGlob | tasks/bundle.js:53-64 | `_relativizeGlob` keeps the list length and order, keeps each `!` ahead of `base/`, and maps an absent list to `[]` |
| Globs.RelativizeGlobRoundTrip | tasks/bundle.js:53-64 | stripping `!` and `base/` from every output recovers the input list |
| Globs.Keys | tasks/bundle.js:231 | `_.keys(bundledPkgs)` lists the embedded package names, one per package, in order |
| Globs.RelativizePkgs | tasks/bundle.js:31-44 | `_relativizePkgs` yields exactly one output per pattern over all packages |
| Globs.RelativizePkgsAppend | tasks/bundle.js:33-42 | packages are processed in key order: the output for `a + b` is the output for `a` followed by that for `b` |
| Globs.RelativizePkgsAt | tasks/bundle.js:31-44 | pattern `j` of package `i` sits at position offset(i)+j, scoped under `base/node_modules/<pkg>/` with its marker in front |
| Globs.RelativizePkgsFrom | tasks/bundle.js:31-44 | every output is some package's pattern scoped under that package's directory |
| Globs.PathToPkg | tasks/bundle.js:73-79 | `_pathToPkg` gives one `base/node_modules/<pkg>` per name, in order |
| Globs.PathToPkgUnderBase | tasks/bundle.js:73-79 | every package directory lies inside `base/` |
| Globs.RelativizedPkgsLieUnderPkgDirs | tasks/bundle.js:31-79 | every `_relativizePkgs` output, without its marker, lies in a directory `_pathToPkg` yields for the same packages |
| Manifests.MergeStep | tasks/bundle.js:92-93 | one iteration overlays the package's dependencies (embedded version wins), then removes the package's own key; other keys are unchanged |
| Manifests.MergeLoop | tasks/bundle.js:90-94 | the loop succeeds iff there are no packages, or a dependencies map exists and every manifest is readable; the error names the first unreadable package, or reports the missing map, which can only happen in the first iteration; the last package is absent from a result |
| Manifests.MergeDeps | tasks/bundle.js:89-97 | `_mergeDeps` drops `devDependencies`, keeps `scripts` and every other field, and fails exactly as the loop does, a missing dependencies map only in the first iteration |
| Manifests.MergeLoopSnoc | tasks/bundle.js:90-94 | processing one more package is one more merge step on the previous result |
| Manifests.MergeLoopMatchesLastWrite | tasks/bundle.js:90-94 | the forward loop agrees on every key with the backward "last package that touches the key decides" reading |
| Manifests.MergeDepsDependencies | tasks/bundle.js:89-97 | the merged dependency map holds exactly the keys and values of the backward reading |
| Manifests.LastWriteSkipsUntouched | tasks/bundle.js:90-94 | packages that neither declare nor are named by a key do not change its final value |
| Manifests.MergeDepsEmbeddedVersionWins | tasks/bundle.js:92 | a key declared by an embedded package, and not overlaid or deleted later, ends with that package's version, even on collision with the project |
| Manifests.MergeDepsUntouchedKeys | tasks/bundle.js:92-93 | keys no embedded package declares or names keep the project's original entry |
| Manifests.LastWriteDropsPackage | tasks/bundle.js:93 | an embedded package's key is absent unless a later package declares it |
| Manifests.MergeDepsDropsPackage | tasks/bundle.js:90-94 | in the merged manifest an embedded package is absent unless a later embedded package depends on it |
| Manifests.MergeDepsReintroducesEarlierPackage | tasks/bundle.js:90-94 | embedding `y` then `z`, where `z` depends on `y`, leaves `y` in the merged dependencies |
| Externals.ScanPackagesFolder | tasks/bundle.js:105-108 | the listing without `.bin`: membership iff listed and not `.bin`, unchanged when `.bin` is absent |
| Externals.ScanPackagesFolderAppend | tasks/bundle.js:105-108 | the filter keeps order and multiplicity: scanning a concatenation is the concatenation of the scans |
| Externals.AddExternals | tasks/bundle.js:197 | every listed package becomes a key mapped to `commonjs <name>`, other keys untouched |
| Externals.DeleteExternals | tasks/bundle.js:198 | exactly the embedded package keys are removed, remaining values untouched |
| Externals.WebpackExternals | tasks/bundle.js:196-198 | the externals keys are exactly the staged packages minus `.bin` minus the embedded packages, each mapped to `commonjs <name>` |
| RunSequence.Execute | tasks/bundle.js:264-278 | stages run in order; the run is a prefix of the sequence ending at the first failing stage, or the whole sequence when none fails |
| RunSequence.NothingRunsAfterFailure | tasks/bundle.js:264-278 | a stage listed after a failing stage never runs |
| RunSequence.ExecuteIgnoresAbsent | tasks/bundle.js:283-292 | a failure of a stage the sequence does not list has no effect on the run |
| Bundle.Configure | tasks/bundle.js:132-153 | the staging dir is `buildDir/bundle`; the entry point is the given non-empty one, else `index.js`; runtime name and URL are the given non-empty strings, else absent; absent embedded packages become none; the filters are the given patterns relativised to the staging dir, an unset `postWebpackFilter` falling back to the sources as documented, an unset `postBundleFilter` to none; and every filter pattern, past its `!`, starts with `buildDir/bundle/` |
| Bundle.UnsetPostWebpackFilterDeletesSources | tasks/bundle.js:132 | with the documented default, the webpack filter unscoped from the staging dir is exactly the sources |
| Bundle.ConfigureAsWritten | tasks/bundle.js:142-153 | the defaulting the code performs equals `Configure` except that an unset `postWebpackFilter` resolves to no patterns |
| Bundle.UnsetPostWebpackFilterIsNotSources | tasks/bundle.js:152-153 | as written, an unset `postWebpackFilter` is empty, not the relativised sources |
| Bundle.StageNamed | tasks/bundle.js:161-260 | a task name resolves only to the stage registered under it |
| Bundle.TaskNamesIdentifyStages | tasks/bundle.js:161-260 | every stage's task name resolves back to that stage, so no two stages share a name |
| Bundle.SequenceOrder | tasks/bundle.js:262-293 | the `bundle` sequence is a subsequence of `bundle-webpack`; both start with clean and end with compress |
| Bundle.SequenceMembers | tasks/bundle.js:262-293 | no stage repeats; the full sequence runs every stage and the minimal one omits exactly copyBundledPackages, mergeDeps, webpackize, deleteWebpackedSources, renameEntryfile |
| Bundle.Plan | tasks/bundle.js:161-260 | planning a stage fails only for mergeDeps, exactly when the manifest merge fails |
| Bundle.CleanRemovesPreviousOutputs | tasks/bundle.js:161-260 | clean deletes the staging dir and exactly the archive file compress writes from that dir |
| Bundle.DeleteStagesRemoveBundledPackages | tasks/bundle.js:230-236 | both delete stages delete `bundleOutputDir/node_modules/<pkg>` for every embedded package |
| Bundle.CopiedPackagesAreDeleted | tasks/bundle.js:178-236 | every glob copyBundledPackages selects lies in an embedded package's directory whose staged copy both delete stages remove |
| Bundle.DeletesStayInStaging | tasks/bundle.js:230-236 | every path the two delete stages hand to `del` starts with `buildDir/bundle/`, with the documented defaulting and with the code's own |
| Bundle.PlannedDeletesStayInStaging | tasks/bundle.js:230-236 | for any configuration whose filter patterns all start with its staging dir, both delete stages plan a delete whose every path starts with that dir |
| Bundle.InstallDepsUsesMergedManifest | tasks/bundle.js:184-193 | installDeps installs (production) from the file mergeDeps writes, which has no devDependencies |
| Bundle.WebpackizeExternals | tasks/bundle.js:195-198 | the externals handed to webpack are the staged packages minus `.bin` and the embedded ones, as `commonjs` references |
| Bundle.RenameEntryfileMovesCompiledOutput | tasks/bundle.js:206-240 | renameEntryfile moves the file webpack writes (`bundle.js`) to `index.js`, whatever the entry point |
| Bundle.ArchiveEntryUnderRoot | tasks/bundle.js:256 | with a slash-free root, every archive entry's top component is the root, and dropping it recovers the entry |
| Bundle.CompressEntriesUnderArtifact | tasks/bundle.js:254-260 | the compress plan roots every entry at the artifact name, so with a slash-free name each entry sits in one top-level directory named after the artifact, and it writes `buildDir/<artifactName>.tar.gz` |
| Bundle.CheckRuntimeUrl | tasks/bundle.js:155-159 | the check guards `addRuntime`: once it passes, a named runtime is downloaded from a known URL on every workspace; it passes exactly when a URL is known whenever a runtime is named, and a failure reports the missing URL |
| Bundle.CheckRuntimeUrlOnArgs | tasks/bundle.js:147-159 | on the arguments, the check throws exactly when the runtime name is a non-empty string and the URL is absent or empty |
| Bundle.Failing | tasks/bundle.js:184-188 | the failing stages of a run are the given ones plus mergeDeps exactly when the merge throws |
| Bundle.RunTask | tasks/bundle.js:262-293 | an entry task fails before any stage iff the runtime name is truthy and the URL is not; otherwise it runs a prefix of its sequence starting with clean, in which no stage before the last fails; it completes iff no listed stage fails; a failed run ends with the failed stage, which is a given failing stage or a mergeDeps whose merge throws |
| Bundle.StartedRunHasRuntimeUrl | tasks/bundle.js:242-247 | once a run starts with a runtime named, addRuntime downloads from the given URL into `./<runtimeName>` |
| Bundle.RuntimeFailureStopsSequence | tasks/bundle.js:262-293 | in either stage sequence, a failing addRuntime keeps addLicense and compress from running |
| Bundle.RuntimeFailureStopsBeforeLicense | tasks/bundle.js:262-293 | if addRuntime fails, addLicense and compress never run, in either sequence |
| Bundle.MergeFailureStopsWebpackRun | tasks/bundle.js:262-279 | in `bundle-webpack`, a throwing merge stops the run at mergeDeps: installDeps and every later stage never run |
| Bundle.MergeFailureSparesPlainRun | tasks/bundle.js:281-293 | `bundle` does not run mergeDeps, so a throwing merge does not change its run |
| Npm.TaskName | tasks/npm.js:35-42 | with a non-empty namespace the name is `namespace-` followed by `n`; otherwise it is `n`; `n` is always a suffix |
| Npm.TaskNameRoundTrip | tasks/npm.js:40-42 | stripping the namespace prefix recovers the stage name |
| Npm.TaskNameInjective | tasks/npm.js:40-42 | distinct names stay distinct under any namespace |
| Npm.FixPackageJsonForNpm | tasks/npm.js:14-17 | removes `scripts` and leaves every other field unchanged |
| Npm.FixPackageJsonForNpmIdempotent | tasks/npm.js:14-17 | applying the fix twice equals applying it once, and it changes nothing without scripts |
| Npm.StageNamesDistinct | tasks/npm.js:44-74 | the four stage names differ from each other and from `npm-pack` |
| Npm.PackTaskNamesDistinct | tasks/npm.js:44-74 | the five registered task names are pairwise different under every namespace |
| Npm.PackSequence | tasks/npm.js:67-74 | `npm-pack` runs the namespaced clean, transpile, copyMeta and fixPackageInfo names in that order; they are pairwise different, none is `npm-pack` itself, and stripping the namespace from each gives back its stage's name |
| Npm.Plan | tasks/npm.js:36-65 | only clean deletes, and it deletes exactly `buildDir/npm-package`; exactly transpile runs babel with the `es2015` preset over the sources, and exactly copyMeta copies the meta files, both from `./` into that directory; only fixPackageInfo writes a manifest, the project's without `scripts`, as `package.json` inside it |

## Findings

| source | as written | input that shows it | evidently intended | confidence | as-written member | corrected member |
|---|---|---|---|---|---|---|
| tasks/bundle.js:152-153 | `_relativizeGlob(bundleOutputDir, args.postWebpackFilter) \|\| _relativizeGlob(bundleOutputDir, args.sources)`: the left side is always an array, so the fallback never runs | `postWebpackFilter` unset, `sources = ["index.js"]`: the filter is `[]` and `deleteWebpackedSources` deletes only the embedded packages | the default documented at line 132, `postWebpackFilter=args.sources`: the sources, relativised to the staging dir, are deleted after webpack | not executed | Bundle.UnsetPostWebpackFilterIsNotSources | Bundle.UnsetPostWebpackFilterDeletesSources |

## Left out

- Bundle.Configure: applies the documented fallback of an unset `postWebpackFilter` to the sources (see Findings), and the stage plans and entry tasks use it. The code's own resolution (no patterns) is modelled by `Bundle.ConfigureAsWritten` only, and of the args-level lemmas only `Bundle.CheckRuntimeUrlOnArgs` and `Bundle.DeletesStayInStaging` are also stated for it.
- Bundle.DeletesStayInStaging: `..` segments in filter patterns are not resolved. The lemma states that every deleted path starts with `buildDir/bundle/` as text. A pattern such as `../src/**` gives `buildDir/bundle/../src/**`, which `del` resolves outside the staging dir.

- `path.join` normalisation: joins are plain `/`-concatenation, so `./` joined with `node_modules` is `.//node_modules`, not `node_modules`.
- String-valued glob arguments: lodash would iterate a string's characters; patterns are always sequences of strings here.
- JavaScript key enumeration rules (integer-like keys first): the embedded-package sequence is taken to be the enumeration order.
- Stage bodies: `gulp.src`/`dest`, `del`, `gulp-install`, `webpack-stream` and the rest of the webpack configuration, `gulp-download`, `gulp-rename`, `gulp-chmod`, `gulp-tar`, `gulp-gzip`, `gulp-babel`. These are foreign libraries and I/O. Each stage is only the action it is handed.
- `runSequence` internals: asynchronous execution and callbacks are library behaviour. The executor is only "in order, stop at the first failure", with the failing stages given as an input.
- File reads and writes, JSON parsing and formatting, and manifest field order are left out. Manifests are records, and the reads are inputs.
- What `download(null)` does when no runtime is configured: `addRuntime` is planned with an absent URL and the name `./null`, but the download itself is not modelled.
- Non-object `dependencies` values and non-string version constraints: a manifest's dependencies are a string-to-string map.
- Undefined `buildDir`, `artifactName` or `sources` (which JavaScript would interpolate as `undefined`), and `opts || {}` in `npm`: these arguments are plain strings and sequences.
- tasks/install-node.js, tasks/test.js, tasks/ci.js, index.js: download, lint, test and CI wiring, with no planning logic of their own.

=== FILE: bundle.dfy ===
/** The `bundle(args)` task set of tasks/bundle.js: argument defaulting, the
    thirteen `bundle:*` stages, the path plan each stage is handed, and the
    two entry tasks `bundle-webpack` and `bundle` that check the runtime
    arguments and then run a fixed stage sequence. Each stage body (gulp
    streams, npm install, webpack, download, tar/gzip) is represented only by
    the action it is given. */
module Bundle {
  import opened Wrappers
  import opened Js
  import opened Globs
  import Manifests
  import Externals
  import RunSequence

  /** `args`; an optional field that was not passed is `None`. */
  datatype BundleArgs = BundleArgs(
    buildDir: string,
    artifactName: string,
    sources: seq<string>,
    postBundleFilter: Option<seq<string>>,
    postWebpackFilter: Option<seq<string>>,
    bundledPkgs: Option<Packages>,
    entrypoint: Option<string>,
    runtimeName: Option<string>,
    runtimeUrl: Option<string>)

  /** The values the stages close over, resolved once from the arguments. */
  datatype Config = Config(
    buildDir: string,
    artifactName: string,
    sources: seq<string>,
    bundledPkgs: Packages,
    entrypoint: string,
    runtimeName: Option<string>,
    runtimeUrl: Option<string>,
    bundleOutputDir: string,
    postBundleFilter: seq<string>,
    postWebpackFilter: seq<string>)

  const DefaultEntrypoint: string := "index.js"

  /** The staging directory `buildDir/bundle`. */
  function StagingDir(buildDir: string): string {
    Join(buildDir, "bundle")
  }

  /** The archive `compress` produces and `clean` removes. */
  function ArchiveFile(buildDir: string, artifactName: string): string {
    Join(buildDir, artifactName + ".tar.gz")
  }

  /** The patterns `postWebpackFilter` resolves from: the given ones, or the
      sources when none are given. */
  function WebpackFilterPatterns(args: BundleArgs): seq<string> {
    if args.postWebpackFilter.Some? then args.postWebpackFilter.value else args.sources
  }

  /** Argument defaulting. `bundledPkgs || null` is iterated by lodash, for
      which null is an empty collection. An unset `postBundleFilter` resolves
      to no patterns; an unset `postWebpackFilter` resolves to the sources,
      relativised to the staging directory, as its documented default says.
      `ConfigureAsWritten` is the defaulting as the code writes it. */
  function Configure(args: BundleArgs): (c: Config)
    ensures c.buildDir == args.buildDir && c.artifactName == args.artifactName
    ensures c.sources == args.sources
    ensures c.bundleOutputDir == StagingDir(args.buildDir)
    ensures args.bundledPkgs.Some? ==> c.bundledPkgs == args.bundledPkgs.value
    ensures args.bundledPkgs.None? ==> c.bundledPkgs == []
    ensures c.entrypoint != ""
    ensures Truthy(args.entrypoint) ==> c.entrypoint == args.entrypoint.value
    ensures !Truthy(args.entrypoint) ==> c.entrypoint == DefaultEntrypoint
    ensures c.runtimeName.Some? <==> Truthy(args.runtimeName)
    ensures Truthy(args.runtimeName) ==> c.runtimeName == args.runtimeName
    ensures c.runtimeUrl.Some? <==> Truthy(args.runtimeUrl)
    ensures Truthy(args.runtimeUrl) ==> c.runtimeUrl == args.runtimeUrl
    ensures c.postBundleFilter == RelativizeGlob(c.bundleOutputDir, args.postBundleFilter)
    ensures args.postBundleFilter.None? ==> c.postBundleFilter == []
    ensures c.postWebpackFilter == RelativizeGlob(c.bundleOutputDir, Some(WebpackFilterPatterns(args)))
    ensures args.postWebpackFilter.None? ==> |c.postWebpackFilter| == |args.sources|
    ensures !IsExclusion(args.buildDir) ==>
      && (forall p :: p in c.postBundleFilter ==> c.bundleOutputDir + "/" <= Positive(p))
      && (forall p :: p in c.postWebpackFilter ==> c.bundleOutputDir + "/" <= Positive(p))
  {
    var dir := StagingDir(args.buildDir);
    assert !IsExclusion(args.buildDir) ==> !IsExclusion(dir);
    Config(
      args.buildDir,
      args.artifactName,
      args.sources,
      if args.bundledPkgs.Some? then args.bundledPkgs.value else [],
      OrDefault(args.entrypoint, DefaultEntrypoint),
      OrNull(args.runtimeName),
      OrNull(args.runtimeUrl),
      dir,
      RelativizeGlob(dir, args.postBundleFilter),
      RelativizeGlob(dir, Some(WebpackFilterPatterns(args))))
  }

  /** With `postWebpackFilter` unset, the resolved filter is the sources
      scoped to the staging directory: stripping the staging prefix from it
      gives back exactly the sources. */
  lemma {:induction false} UnsetPostWebpackFilterDeletesSources(args: BundleArgs)
    requires args.postWebpackFilter.None? && !IsExclusion(args.buildDir)
    ensures UnscopeAll(StagingDir(args.buildDir) + "/", Configure(args).postWebpackFilter)
         == Some(args.sources)
  {
    assert !IsExclusion(StagingDir(args.buildDir));
    RelativizeGlobRoundTrip(StagingDir(args.buildDir), args.sources);
  }

  /** Argument defaulting as the code writes it: `_relativizeGlob` always
      returns an array, and arrays are truthy, so the `|| []` and the fallback
      to the sources are never taken, and an unset `postWebpackFilter`
      resolves to no patterns. It differs from `Configure` in that one case
      only. */
  function ConfigureAsWritten(args: BundleArgs): (c: Config)
    ensures args.postWebpackFilter.Some? ==> c == Configure(args)
    ensures args.postWebpackFilter.None? ==> c == Configure(args).(postWebpackFilter := [])
  {
    var dir := StagingDir(args.buildDir);
    Config(
      args.buildDir,
      args.artifactName,
      args.sources,
      if args.bundledPkgs.Some? then args.bundledPkgs.value else [],
      OrDefault(args.entrypoint, DefaultEntrypoint),
      OrNull(args.runtimeName),
      OrNull(args.runtimeUrl),
      dir,
      RelativizeGlob(dir, args.postBundleFilter),
      RelativizeGlob(dir, args.postWebpackFilter))
  }

  /** As written, an unset `postWebpackFilter` does not fall back to the
      sources: with any source given, the resolved filter is empty, unlike
      the sources scoped to the staging directory. */
  lemma UnsetPostWebpackFilterIsNotSources(args: BundleArgs)
    requires args.postWebpackFilter.None? && args.sources != []
    ensures ConfigureAsWritten(args).postWebpackFilter == []
    ensures ConfigureAsWritten(args).postWebpackFilter
         != RelativizeGlob(StagingDir(args.buildDir), Some(args.sources))
    ensures ConfigureAsWritten(args).postWebpackFilter != Configure(args).postWebpackFilter
  {
  }

  datatype Stage =
    | Clean | PreinstallPackages | CopySources | CopyBundledPackages | MergeDeps
    | InstallDeps | Webpackize | DeleteWebpackedSources | PostBundleFilter
    | RenameEntryfile | AddRuntime | AddLicense | Compress

  /** The gulp task name each stage is registered under. */
  function TaskName(s: Stage): string {
    match s
    case Clean => "bundle:clean"
    case PreinstallPackages => "bundle:preinstallPackages"
    case CopySources => "bundle:copySources"
    case CopyBundledPackages => "bundle:copyBundledPackages"
    case MergeDeps => "bundle:mergeDeps"
    case InstallDeps => "bundle:installDeps"
    case Webpackize => "bundle:webpackize"
    case DeleteWebpackedSources => "bundle:deleteWebpackedSources"
    case PostBundleFilter => "bundle:postBundleFilter"
    case RenameEntryfile => "bundle:renameEntryfile"
    case AddRuntime => "bundle:addRuntime"
    case AddLicense => "bundle:addLicense"
    case Compress => "bundle:compress"
  }

  /** The stage registered under a task name, if any. */
  function StageNamed(name: string): (r: Option<Stage>)
    ensures r.Some? ==> TaskName(r.value) == name
  {
    if name == "bundle:clean" then Some(Clean)
    else if name == "bundle:preinstallPackages" then Some(PreinstallPackages)
    else if name == "bundle:copySources" then Some(CopySources)
    else if name == "bundle:copyBundledPackages" then Some(CopyBundledPackages)
    else if name == "bundle:mergeDeps" then Some(MergeDeps)
    else if name == "bundle:installDeps" then Some(InstallDeps)
    else if name == "bundle:webpackize" then Some(Webpackize)
    else if name == "bundle:deleteWebpackedSources" then Some(DeleteWebpackedSources)
    else if name == "bundle:postBundleFilter" then Some(PostBundleFilter)
    else if name == "bundle:renameEntryfile" then Some(RenameEntryfile)
    else if name == "bundle:addRuntime" then Some(AddRuntime)
    else if name == "bundle:addLicense" then Some(AddLicense)
    else if name == "bundle:compress" then Some(Compress)
    else None
  }

  /** Task names identify their stage: no two stages share a name. */
  lemma TaskNamesIdentifyStages(s: Stage)
    ensures StageNamed(TaskName(s)) == Some(s)
  {
  }

  /** The two entry tasks. */
  datatype Variant = BundleWebpack | BundlePlain

  function EntryTaskName(v: Variant): string {
    match v
    case BundleWebpack => "bundle-webpack"
    case BundlePlain => "bundle"
  }

  const FullSequence: seq<Stage> := [
    Clean, PreinstallPackages, CopySources, CopyBundledPackages, MergeDeps,
    InstallDeps, Webpackize, DeleteWebpackedSources, PostBundleFilter,
    RenameEntryfile, AddRuntime, AddLicense, Compress]

  const MinimalSequence: seq<Stage> := [
    Clean, PreinstallPackages, CopySources, InstallDeps, PostBundleFilter,
    AddRuntime, AddLicense, Compress]

  function Sequence(v: Variant): seq<Stage> {
    match v
    case BundleWebpack => FullSequence
    case BundlePlain => MinimalSequence
  }

  /** `idx` picks the elements of `a` out of `b` at increasing positions. */
  ghost predicate Embeds<T>(a: seq<T>, b: seq<T>, idx: seq<nat>) {
    && |idx| == |a|
    && (forall i :: 0 <= i < |idx| ==> idx[i] < |b| && b[idx[i]] == a[i])
    && (forall i, j :: 0 <= i < j < |idx| ==> idx[i] < idx[j])
  }

  /** `a` is `b` with some elements left out, order kept. */
  ghost predicate IsSubsequence<T>(a: seq<T>, b: seq<T>) {
    exists idx :: Embeds(a, b, idx)
  }

  predicate Distinct<T(==)>(s: seq<T>) {
    forall i, j :: 0 <= i < j < |s| ==> s[i] != s[j]
  }

  /** The stages only the `bundle-webpack` sequence runs. */
  predicate WebpackOnly(s: Stage) {
    s == CopyBundledPackages || s == MergeDeps || s == Webpackize
      || s == DeleteWebpackedSources || s == RenameEntryfile
  }

  /** Both sequences start by cleaning and end by compressing, and the
      minimal one keeps the full one's order. */
  lemma SequenceOrder()
    ensures IsSubsequence(MinimalSequence, FullSequence)
    ensures FullSequence[0] == Clean && MinimalSequence[0] == Clean
    ensures FullSequence[|FullSequence| - 1] == Compress
    ensures MinimalSequence[|MinimalSequence| - 1] == Compress
  {
    var idx: seq<nat> := [0, 1, 2, 5, 8, 10, 11, 12];
    assert Embeds(MinimalSequence, FullSequence, idx);
  }

  /** Every stage runs at most once in either sequence; the full sequence
      runs every stage, and the minimal one omits exactly the webpack stages. */
  lemma SequenceMembers(s: Stage)
    ensures Distinct(FullSequence) && Distinct(MinimalSequence)
    ensures s in FullSequence
    ensures s in MinimalSequence <==> !WebpackOnly(s)
  {
  }

  /** What a stage is handed: the paths and options of its foreign body. */
  datatype Action =
    | Delete(paths: seq<string>)
      // del(paths)
    | Install(manifest: string, base: string, production: bool)
      // gulp.src([manifest], {base}).pipe(install(...))
    | Copy(globs: seq<string>, base: string, dest: string)
      // gulp.src(globs, {base}).pipe(gulp.dest(dest))
    | WriteManifest(path: string, contents: Manifests.Manifest)
      // fs.writeFileSync(path, JSON.stringify(contents))
    | Compile(entry: string, base: string, externals: map<string, string>, output: string, dest: string)
      // webpack of the entry file, written as dest/output
    | Rename(from: string, to: string)
      // fs.renameSync(from, to)
    | Download(url: Option<string>, fileName: string, mode: nat, dest: string)
      // download(url), renamed, chmod(mode), written under dest
    | Archive(src: string, base: string, root: string, tarName: string, dest: string)
      // every entry moved under root, tar(tarName), gzip, written under dest

  /** What the stages read from disk when they run: the project's
      package.json, the installed packages' manifests, and the listing of the
      staged `node_modules` folder at `webpackize` time. */
  datatype Workspace = Workspace(
    project: Manifests.Manifest,
    installed: Manifests.ManifestReads,
    stagedModules: seq<string>)

  /** The action each stage runs, built from the configuration. */
  function Plan(c: Config, w: Workspace, s: Stage): (r: Result<Action, Manifests.MergeError>)
    ensures r.Failure? <==> s == MergeDeps && Manifests.MergeDeps(w.project, c.bundledPkgs, w.installed).Failure?
  {
    var dir := c.bundleOutputDir;
    match s
    case Clean => Success(Delete([dir, ArchiveFile(c.buildDir, c.artifactName)]))
    case PreinstallPackages => Success(Install("./package.json", "./", false))
    case CopySources => Success(Copy(c.sources, "./", dir))
    case CopyBundledPackages => Success(Copy(RelativizePkgs("./", c.bundledPkgs), "./", dir))
    case MergeDeps =>
      var merged :- Manifests.MergeDeps(w.project, c.bundledPkgs, w.installed);
      Success(WriteManifest(Join(dir, "package.json"), merged))
    case InstallDeps => Success(Install(dir + "/package.json", dir, true))
    case Webpackize =>
      Success(Compile(dir + "/" + c.entrypoint, dir,
        Externals.WebpackExternals(w.stagedModules, c.bundledPkgs), "bundle.js", dir))
    case DeleteWebpackedSources =>
      Success(Delete(c.postWebpackFilter + PathToPkg(dir, Keys(c.bundledPkgs))))
    case PostBundleFilter =>
      Success(Delete(c.postBundleFilter + PathToPkg(dir, Keys(c.bundledPkgs))))
    case RenameEntryfile => Success(Rename(Join(dir, "bundle.js"), Join(dir, "index.js")))
    case AddRuntime =>
      Success(Download(c.runtimeUrl, "./" + Interpolate(c.runtimeName), 755, dir + "/runtime"))
    case AddLicense => Success(Copy(["./COPYING"], "./", dir))
    case Compress =>
      Success(Archive(dir + "{,/**}", dir, c.artifactName, c.artifactName + ".tar", c.buildDir))
  }

  /** The file gzip writes: the tar name plus `.gz`, under the destination. */
  function ArchiveOutput(a: Action): string
    requires a.Archive?
  {
    Join(a.dest, a.tarName + ".gz")
  }

  /** `clean` removes the staging directory and exactly the archive that
      `compress` writes, so no output of a previous run survives it. */
  lemma CleanRemovesPreviousOutputs(c: Config, w: Workspace)
    ensures Plan(c, w, Clean).Success? && Plan(c, w, Compress).Success?
    ensures Plan(c, w, Clean).value.Delete?
    ensures Plan(c, w, Compress).value.Archive?
    ensures Plan(c, w, Clean).value.paths
         == [c.bundleOutputDir, ArchiveOutput(Plan(c, w, Compress).value)]
    ensures Plan(c, w, Compress).value.base == c.bundleOutputDir
  {
    var a := Plan(c, w, Compress).value;
    assert a.tarName + ".gz" == c.artifactName + ".tar.gz";
  }

  /** Both delete stages remove the staged directory of every embedded package. */
  lemma DeleteStagesRemoveBundledPackages(c: Config, w: Workspace, pkg: string)
    requires pkg in Keys(c.bundledPkgs)
    ensures Plan(c, w, DeleteWebpackedSources).value.Delete?
    ensures Plan(c, w, PostBundleFilter).value.Delete?
    ensures PkgDir(c.bundleOutputDir, pkg) in Plan(c, w, DeleteWebpackedSources).value.paths
    ensures PkgDir(c.bundleOutputDir, pkg) in Plan(c, w, PostBundleFilter).value.paths
  {
  }

  /** Every pattern `copyBundledPackages` selects lies in some embedded
      package's directory, and both delete stages remove that package's
      staged copy. */
  lemma CopiedPackagesAreDeleted(c: Config, w: Workspace, k: nat)
    requires k < |Plan(c, w, CopyBundledPackages).value.globs|
    ensures exists i :: (0 <= i < |c.bundledPkgs|
      && PkgDir("./", c.bundledPkgs[i].0) + "/" <= Positive(Plan(c, w, CopyBundledPackages).value.globs[k])
      && PkgDir(c.bundleOutputDir, c.bundledPkgs[i].0) in Plan(c, w, DeleteWebpackedSources).value.paths
      && PkgDir(c.bundleOutputDir, c.bundledPkgs[i].0) in Plan(c, w, PostBundleFilter).value.paths)
  {
    RelativizedPkgsLieUnderPkgDirs("./", c.bundledPkgs, k);
    var i :| 0 <= i < |c.bundledPkgs| &&
      PathToPkg("./", Keys(c.bundledPkgs))[i] + "/" <= Positive(RelativizePkgs("./", c.bundledPkgs)[k]);
    assert Keys(c.bundledPkgs)[i] == c.bundledPkgs[i].0;
    DeleteStagesRemoveBundledPackages(c, w, c.bundledPkgs[i].0);
  }

  /** For any configuration whose filter patterns all start with its staging
      directory, every path the two delete stages hand to `del` starts with
      it too. */
  lemma PlannedDeletesStayInStaging(c: Config, w: Workspace, s: Stage)
    requires !IsExclusion(c.bundleOutputDir)
    requires forall p :: p in c.postBundleFilter ==> c.bundleOutputDir + "/" <= Positive(p)
    requires forall p :: p in c.postWebpackFilter ==> c.bundleOutputDir + "/" <= Positive(p)
    requires s == DeleteWebpackedSources || s == PostBundleFilter
    ensures Plan(c, w, s).value.Delete?
    ensures forall p :: p in Plan(c, w, s).value.paths ==> c.bundleOutputDir + "/" <= Positive(p)
  {
    PathToPkgUnderBase(c.bundleOutputDir, Keys(c.bundledPkgs));
  }

  /** Apart from `clean`, every path the delete stages hand to `del` starts
      with the staging directory `buildDir/bundle/`, with the documented
      defaulting and with the code's own. A `..` segment in a pattern is
      kept as text, so this is a prefix and not a containment. */
  lemma DeletesStayInStaging(args: BundleArgs, w: Workspace, s: Stage)
    requires !IsExclusion(args.buildDir)
    requires s == DeleteWebpackedSources || s == PostBundleFilter
    ensures Plan(Configure(args), w, s).value.Delete?
    ensures forall p :: p in Plan(Configure(args), w, s).value.paths ==>
      Configure(args).bundleOutputDir + "/" <= Positive(p)
    ensures Plan(ConfigureAsWritten(args), w, s).value.Delete?
    ensures forall p :: p in Plan(ConfigureAsWritten(args), w, s).value.paths ==>
      ConfigureAsWritten(args).bundleOutputDir + "/" <= Positive(p)
  {
    var c, cw := Configure(args), ConfigureAsWritten(args);
    assert !IsExclusion(c.bundleOutputDir);
    PlannedDeletesStayInStaging(c, w, s);
    assert cw.postBundleFilter == c.postBundleFilter && cw.bundleOutputDir == c.bundleOutputDir;
    assert forall p :: p in cw.postWebpackFilter ==> p in c.postWebpackFilter || cw.postWebpackFilter == [];
    PlannedDeletesStayInStaging(cw, w, s);
  }

  /** `mergeDeps` writes the manifest that `installDeps` installs from. */
  lemma InstallDepsUsesMergedManifest(c: Config, w: Workspace)
    requires Plan(c, w, MergeDeps).Success?
    ensures Plan(c, w, MergeDeps).value.WriteManifest?
    ensures Plan(c, w, InstallDeps).value.Install?
    ensures Plan(c, w, InstallDeps).value.manifest == Plan(c, w, MergeDeps).value.path
    ensures Plan(c, w, InstallDeps).value.production
    ensures Plan(c, w, MergeDeps).value.contents.devDependencies.None?
  {
  }

  /** Webpack leaves as externals exactly the staged packages other than
      `.bin` and the embedded ones, each referenced as `commonjs <name>`. */
  lemma WebpackizeExternals(c: Config, w: Workspace)
    ensures Plan(c, w, Webpackize).value.Compile?
    ensures var e := Plan(c, w, Webpackize).value.externals;
      forall k :: (k in e <==> k in w.stagedModules && k != ".bin" && k !in Keys(c.bundledPkgs))
        && (k in e ==> e[k] == "commonjs " + k)
  {
  }

  /** `renameEntryfile` moves the file webpack wrote to `index.js`, whatever
      the configured entry point. */
  lemma RenameEntryfileMovesCompiledOutput(c: Config, w: Workspace)
    ensures Plan(c, w, Webpackize).value.Compile?
    ensures Plan(c, w, RenameEntryfile).value.Rename?
    ensures var compiled := Plan(c, w, Webpackize).value;
      Plan(c, w, RenameEntryfile).value.from == Join(compiled.dest, compiled.output)
    ensures Plan(c, w, RenameEntryfile).value.to == Join(c.bundleOutputDir, DefaultEntrypoint)
  {
  }

  /** A directory name of the archive: the stage's entries moved under `root`. */
  function ArchiveEntry(root: string, dirname: string): string {
    Join(root, dirname)
  }

  /** The first path component of `p`. */
  function TopComponent(p: string): (r: string)
    ensures r <= p
    ensures '/' !in r
  {
    if p == [] || p[0] == '/' then [] else [p[0]] + TopComponent(p[1..])
  }

  /** With a plain artifact name, every archive entry sits in one top-level
      directory named after the artifact, and removing it recovers the entry. */
  lemma ArchiveEntryUnderRoot(root: string, dirname: string)
    requires '/' !in root
    ensures TopComponent(ArchiveEntry(root, dirname)) == root
    ensures ArchiveEntry(root, dirname)[|root| + 1..] == dirname
  {
    var e := ArchiveEntry(root, dirname);
    if root == [] {
      assert e[0] == '/';
    } else {
      assert e[1..] == root[1..] + "/" + dirname;
      assert root[0] == e[0];
      assert '/' !in root[1..];
      ArchiveEntryUnderRoot(root[1..], dirname);
    }
  }

  /** The `compress` plan puts every entry of the archive under one top-level
      directory named after the artifact, when that name has no slash, and
      writes the archive next to the staging directory in `buildDir`. */
  lemma CompressEntriesUnderArtifact(c: Config, w: Workspace, dirname: string)
    requires '/' !in c.artifactName
    ensures Plan(c, w, Compress).value.Archive?
    ensures var a := Plan(c, w, Compress).value;
      && a.root == c.artifactName
      && TopComponent(ArchiveEntry(a.root, dirname)) == c.artifactName
      && ArchiveEntry(a.root, dirname)[|c.artifactName| + 1..] == dirname
      && ArchiveOutput(a) == ArchiveFile(c.buildDir, c.artifactName)
  {
    var a := Plan(c, w, Compress).value;
    ArchiveEntryUnderRoot(a.root, dirname);
    assert a.tarName + ".gz" == c.artifactName + ".tar.gz";
  }

  datatype BundleError = RuntimeUrlNotProvided

  /** `_checkRuntimeUrl`: a configuration passes exactly when a URL is known
      whenever a runtime is named, so that past the check `addRuntime`
      downloads a named runtime from a known URL; a failure reports the
      missing URL. */
  function CheckRuntimeUrl(c: Config): (r: Option<BundleError>)
    ensures r.None? <==> (c.runtimeName.Some? ==> c.runtimeUrl.Some?)
    ensures r.None? && c.runtimeName.Some? ==>
      forall w :: Plan(c, w, AddRuntime).value.Download? && Plan(c, w, AddRuntime).value.url.Some?
    ensures r.Some? ==> r.value == RuntimeUrlNotProvided
  {
    if c.runtimeName.Some? && c.runtimeUrl.None? then Some(RuntimeUrlNotProvided) else None
  }

  /** On the arguments, the check fails exactly when the runtime name is a
      non-empty string and the URL is absent or empty. */
  lemma CheckRuntimeUrlOnArgs(args: BundleArgs)
    ensures CheckRuntimeUrl(Configure(args)).Some?
        <==> Truthy(args.runtimeName) && !Truthy(args.runtimeUrl)
    ensures CheckRuntimeUrl(ConfigureAsWritten(args)) == CheckRuntimeUrl(Configure(args))
  {
  }

  /** The stages that fail in a run: the given ones, plus `mergeDeps` when
      the manifest merge throws. */
  function Failing(c: Config, w: Workspace, failing: set<Stage>): (f: set<Stage>)
    ensures failing <= f
    ensures MergeDeps in f <==> MergeDeps in failing || Plan(c, w, MergeDeps).Failure?
    ensures forall s :: s != MergeDeps ==> (s in f <==> s in failing)
  {
    if Plan(c, w, MergeDeps).Failure? then failing + {MergeDeps} else failing
  }

  /** Starting entry task `v` on workspace `w`: the runtime check, then the
      stage sequence (run by `runSequence`), where the stages in `failing`
      fail and so does `mergeDeps` when the merge throws. */
  function RunTask(args: BundleArgs, v: Variant, failing: set<Stage>, w: Workspace)
    : (r: Result<RunSequence.Run<Stage>, BundleError>)
    ensures r.Failure? <==> Truthy(args.runtimeName) && !Truthy(args.runtimeUrl)
    ensures r.Success? ==> r.value.executed <= Sequence(v)
    ensures r.Success? && r.value.failed.None? ==> r.value.executed == Sequence(v)
    ensures r.Success? && |r.value.executed| > 0 ==> r.value.executed[0] == Clean
    ensures r.Success? && r.value.failed.Some? ==>
      r.value.failed.value in failing || r.value.failed.value == MergeDeps
    ensures r.Success? && r.value.failed == Some(MergeDeps) ==>
      MergeDeps in failing || Plan(Configure(args), w, MergeDeps).Failure?
    ensures r.Success? ==>
      (r.value.failed.None? <==> forall s :: s in Sequence(v) ==> s !in Failing(Configure(args), w, failing))
    ensures r.Success? && r.value.failed.Some? ==>
      forall i :: 0 <= i < |r.value.executed| - 1 ==> r.value.executed[i] !in Failing(Configure(args), w, failing)
    ensures r.Success? && r.value.failed.Some? ==>
      |r.value.executed| > 0 && r.value.executed[|r.value.executed| - 1] == r.value.failed.value
  {
    var c := Configure(args);
    match CheckRuntimeUrl(c)
    case Some(e) => Failure(e)
    case None => Success(RunSequence.Execute(Sequence(v), Failing(c, w, failing)))
  }

  /** A started run never downloads a runtime without a URL: the check
      guarantees a URL whenever a runtime is named. */
  lemma StartedRunHasRuntimeUrl(args: BundleArgs, v: Variant, failing: set<Stage>, w: Workspace)
    requires RunTask(args, v, failing, w).Success?
    requires Truthy(args.runtimeName)
    ensures Plan(Configure(args), w, AddRuntime).value.Download?
    ensures Plan(Configure(args), w, AddRuntime).value.url == Some(args.runtimeUrl.value)
    ensures Plan(Configure(args), w, AddRuntime).value.fileName == "./" + args.runtimeName.value
  {
  }

  /** When the runtime download fails, neither the license nor the archive
      stage runs, in both variants. */
  lemma RuntimeFailureStopsBeforeLicense(args: BundleArgs, v: Variant, failing: set<Stage>, w: Workspace)
    requires !Truthy(args.runtimeName) || Truthy(args.runtimeUrl)
    requires AddRuntime in failing
    ensures AddLicense !in RunTask(args, v, failing, w).value.executed
    ensures Compress !in RunTask(args, v, failing, w).value.executed
  {
    var f := Failing(Configure(args), w, failing);
    assert RunTask(args, v, failing, w).value == RunSequence.Execute(Sequence(v), f);
    RuntimeFailureStopsSequence(v, f);
  }

  /** The sequence-level fact behind `RuntimeFailureStopsBeforeLicense`:
      addRuntime is listed before addLicense and compress, once each. */
  lemma RuntimeFailureStopsSequence(v: Variant, f: set<Stage>)
    requires AddRuntime in f
    ensures AddLicense !in RunSequence.Execute(Sequence(v), f).executed
    ensures Compress !in RunSequence.Execute(Sequence(v), f).executed
  {
    var stages := Sequence(v);
    var n := |stages|;
    assert stages[n - 3] == AddRuntime && stages[n - 2] == AddLicense && stages[n - 1] == Compress;
    SequenceMembers(Clean);
    RunSequence.NothingRunsAfterFailure(stages, f, n - 3, n - 2);
    RunSequence.NothingRunsAfterFailure(stages, f, n - 3, n - 1);
  }

  /** In `bundle-webpack`, a manifest merge that throws stops the run at
      `mergeDeps`: `installDeps` and every later stage never run. */
  lemma MergeFailureStopsWebpackRun(args: BundleArgs, failing: set<Stage>, w: Workspace)
    requires !Truthy(args.runtimeName) || Truthy(args.runtimeUrl)
    requires Plan(Configure(args), w, MergeDeps).Failure?
    ensures RunTask(args, BundleWebpack, failing, w).value.failed.Some?
    ensures forall k :: 5 <= k < |FullSequence| ==>
      FullSequence[k] !in RunTask(args, BundleWebpack, failing, w).value.executed
    ensures InstallDeps !in RunTask(args, BundleWebpack, failing, w).value.executed
  {
    var f := Failing(Configure(args), w, failing);
    assert FullSequence[4] == MergeDeps && FullSequence[5] == InstallDeps;
    SequenceMembers(Clean);
    forall k | 5 <= k < |FullSequence|
      ensures FullSequence[k] !in RunTask(args, BundleWebpack, failing, w).value.executed
    {
      RunSequence.NothingRunsAfterFailure(FullSequence, f, 4, k);
    }
  }

  /** `bundle` never reads the embedded packages' manifests: whether the
      merge would throw makes no difference to its run. */
  lemma MergeFailureSparesPlainRun(args: BundleArgs, failing: set<Stage>, w: Workspace)
    requires !Truthy(args.runtimeName) || Truthy(args.runtimeUrl)
    ensures RunTask(args, BundlePlain, failing, w).value
         == RunSequence.Execute(MinimalSequence, failing)
  {
    SequenceMembers(MergeDeps);
    if Plan(Configure(args), w, MergeDeps).Failure? {
      RunSequence.ExecuteIgnoresAbsent(MinimalSequence, failing, MergeDeps);
    }
  }
}

=== FILE: externals.dfy ===
/** The webpack externals of the `bundle:webpackize` stage (tasks/bundle.js
    `_scanPackagesFolder` and lines 196-198): every package found in the
    staged `node_modules` folder except `.bin`, as a `commonjs` reference,
    minus the embedded packages, which webpack compiles in. */
module Externals {
  import opened Globs

  /** `_scanPackagesFolder`: the folder listing without `.bin`, order kept. */
  function ScanPackagesFolder(entries: seq<string>): (r: seq<string>)
    ensures forall x :: x in r <==> x in entries && x != ".bin"
    ensures ".bin" !in entries ==> r == entries
    ensures |r| <= |entries|
  {
    if entries == [] then []
    else
      var rest := ScanPackagesFolder(entries[1..]);
      assert entries == [entries[0]] + entries[1..];
      if entries[0] != ".bin" then [entries[0]] + rest else rest
  }

  /** Scanning a listing scans its first entry, then the rest. */
  lemma ScanPackagesFolderCons(x: string, t: seq<string>)
    ensures ScanPackagesFolder([x] + t) == (if x == ".bin" then [] else [x]) + ScanPackagesFolder(t)
  {
    assert ([x] + t)[0] == x && ([x] + t)[1..] == t;
  }

  /** The filter keeps the listing's order and multiplicity: it distributes
      over concatenation. */
  lemma {:induction false} ScanPackagesFolderAppend(a: seq<string>, b: seq<string>)
    ensures ScanPackagesFolder(a + b) == ScanPackagesFolder(a) + ScanPackagesFolder(b)
    decreases |a|
  {
    if a == [] {
      assert a + b == b;
    } else {
      var x, t := a[0], a[1..];
      var head := if x == ".bin" then [] else [x];
      assert a == [x] + t;
      ConcatAssoc([x], t, b);
      ScanPackagesFolderCons(x, t + b);
      ScanPackagesFolderCons(x, t);
      ScanPackagesFolderAppend(t, b);
      ConcatAssoc(head, ScanPackagesFolder(t), ScanPackagesFolder(b));
    }
  }

  /** The webpack module reference for an external package. */
  function CommonJs(pkg: string): string {
    "commonjs " + pkg
  }

  /** `_.each(pkgs, (pkg) => externals[pkg] = ...)`, in listing order. */
  function AddExternals(externals: map<string, string>, pkgs: seq<string>): (r: map<string, string>)
    ensures r.Keys == externals.Keys + set p | p in pkgs
    ensures forall k :: k in r && k !in pkgs ==> r[k] == externals[k]
    ensures forall k :: k in pkgs ==> r[k] == CommonJs(k)
    decreases |pkgs|
  {
    if pkgs == [] then externals
    else AddExternals(externals[pkgs[0] := CommonJs(pkgs[0])], pkgs[1..])
  }

  /** `_.each(bundledPkgs, (props, pkg) => delete externals[pkg])`. */
  function DeleteExternals(externals: map<string, string>, pkgs: seq<string>): (r: map<string, string>)
    ensures r.Keys == externals.Keys - set p | p in pkgs
    ensures forall k :: k in r ==> r[k] == externals[k]
    decreases |pkgs|
  {
    if pkgs == [] then externals
    else DeleteExternals(externals - {pkgs[0]}, pkgs[1..])
  }

  /** The externals object handed to webpack, from the staged folder listing. */
  function WebpackExternals(listing: seq<string>, bundled: Packages): (r: map<string, string>)
    ensures forall k :: k in r <==> k in listing && k != ".bin" && k !in Keys(bundled)
    ensures forall k :: k in r ==> r[k] == CommonJs(k)
  {
    DeleteExternals(AddExternals(map[], ScanPackagesFolder(listing)), Keys(bundled))
  }
}

=== FILE: globs.dfy ===
/** Glob relativisation (tasks/bundle.js `_relativizeGlob`, `_relativizePkgs`,
    `_pathToPkg`): patterns are scoped under a base directory, or under a
    package directory `base/node_modules/<pkg>`, and a leading `!` exclusion
    marker is moved ahead of the prefix. */
module Globs {
  import opened Wrappers
  import opened Js

  /** Embedded packages in object key order: package name and its patterns. */
  type Packages = seq<(string, seq<string>)>

  /** True when `p` carries the leading exclusion marker (`p.substring(0, 1) === '!'`). */
  predicate IsExclusion(p: string) {
    |p| > 0 && p[0] == '!'
  }

  /** `p` without its exclusion marker. */
  function Positive(p: string): (r: string)
    ensures IsExclusion(p) ==> p == "!" + r
    ensures !IsExclusion(p) ==> r == p
  {
    if IsExclusion(p) then p[1..] else p
  }

  /** One pattern scoped under `prefix`, the exclusion marker kept in front. */
  function Scope(prefix: string, p: string): (r: string)
    ensures !IsExclusion(prefix) ==> (IsExclusion(r) <==> IsExclusion(p))
    ensures !IsExclusion(prefix) ==> Positive(r) == prefix + Positive(p)
  {
    if IsExclusion(p) then "!" + prefix + p[1..] else prefix + p
  }

  /** Inverse of `Scope`: drop the marker, drop the prefix, put the marker back. */
  function Unscope(prefix: string, r: string): Option<string> {
    var q := Positive(r);
    if prefix <= q then
      Some((if IsExclusion(r) then "!" else "") + q[|prefix|..])
    else
      None
  }

  lemma ScopeRoundTrip(prefix: string, p: string)
    requires !IsExclusion(prefix)
    ensures Unscope(prefix, Scope(prefix, p)) == Some(p)
  {
    var r := Scope(prefix, p);
    var q := Positive(r);
    assert q == prefix + Positive(p);
    assert prefix <= q;
    assert q[|prefix|..] == Positive(p);
    if IsExclusion(p) {
      assert IsExclusion(r);
      assert p == "!" + Positive(p);
    } else {
      assert !IsExclusion(r);
      assert "" + q[|prefix|..] == p;
    }
  }

  /** Each pattern scoped under `prefix`, pushed in input order. */
  function ScopeAll(prefix: string, ps: seq<string>): (r: seq<string>)
    ensures |r| == |ps|
    ensures forall i :: 0 <= i < |ps| ==> r[i] == Scope(prefix, ps[i])
  {
    if ps == [] then []
    else ScopeAll(prefix, ps[..|ps| - 1]) + [Scope(prefix, ps[|ps| - 1])]
  }

  /** Element-wise `Unscope`; `None` as soon as one output lacks the prefix. */
  function UnscopeAll(prefix: string, rs: seq<string>): Option<seq<string>> {
    if rs == [] then Some([])
    else
      match (Unscope(prefix, rs[0]), UnscopeAll(prefix, rs[1..]))
      case (Some(p), Some(ps)) => Some([p] + ps)
      case _ => None
  }

  lemma {:induction false} ScopeAllRoundTrip(prefix: string, ps: seq<string>)
    requires !IsExclusion(prefix)
    ensures UnscopeAll(prefix, ScopeAll(prefix, ps)) == Some(ps)
    decreases |ps|
  {
    if ps != [] {
      var rs := ScopeAll(prefix, ps);
      ScopeRoundTrip(prefix, ps[0]);
      assert rs[1..] == ScopeAll(prefix, ps[1..]);
      ScopeAllRoundTrip(prefix, ps[1..]);
      assert [ps[0]] + ps[1..] == ps;
    }
  }

  /** An absent (`undefined`) pattern list iterates as no patterns at all. */
  function Patterns(globs: Option<seq<string>>): seq<string> {
    if globs.Some? then globs.value else []
  }

  /** `_relativizeGlob(base, globs)`: every pattern scoped under `base/`. */
  function RelativizeGlob(base: string, globs: Option<seq<string>>): (r: seq<string>)
    ensures |r| == |Patterns(globs)|
    ensures globs.None? ==> r == []
    ensures !IsExclusion(base) ==> forall i :: 0 <= i < |r| ==>
      && (IsExclusion(r[i]) <==> IsExclusion(Patterns(globs)[i]))
      && Positive(r[i]) == base + "/" + Positive(Patterns(globs)[i])
  {
    var r := ScopeAll(base + "/", Patterns(globs));
    assert !IsExclusion(base) ==> !IsExclusion(base + "/");
    r
  }

  /** Removing the marker and `base/` from every output recovers the input list. */
  lemma {:induction false} RelativizeGlobRoundTrip(base: string, globs: seq<string>)
    requires !IsExclusion(base)
    ensures UnscopeAll(base + "/", RelativizeGlob(base, Some(globs))) == Some(globs)
  {
    assert !IsExclusion(base + "/");
    ScopeAllRoundTrip(base + "/", globs);
  }

  /** `path.join(base, 'node_modules', pkg)`: the directory of an installed package. */
  function PkgDir(base: string, pkg: string): string {
    Join(Join(base, "node_modules"), pkg)
  }

  /** The package names of `pkgs`, in key order (`_.keys`). */
  function Keys(pkgs: Packages): (ks: seq<string>)
    ensures |ks| == |pkgs|
    ensures forall i :: 0 <= i < |pkgs| ==> ks[i] == pkgs[i].0
  {
    if pkgs == [] then [] else [pkgs[0].0] + Keys(pkgs[1..])
  }

  /** Number of patterns over all packages. */
  function PatternCount(pkgs: Packages): nat {
    if pkgs == [] then 0 else PatternCount(pkgs[..|pkgs| - 1]) + |pkgs[|pkgs| - 1].1|
  }

  /** `_relativizePkgs(base, pkgs)`: packages in key order, each package's
      patterns in list order, scoped under `PkgDir(base, pkg) + "/"`. */
  function RelativizePkgs(base: string, pkgs: Packages): (r: seq<string>)
    ensures |r| == PatternCount(pkgs)
  {
    if pkgs == [] then []
    else
      var (pkg, globs) := pkgs[|pkgs| - 1];
      RelativizePkgs(base, pkgs[..|pkgs| - 1]) + ScopeAll(PkgDir(base, pkg) + "/", globs)
  }

  /** One more package appends its scoped patterns. */
  lemma RelativizePkgsSnoc(base: string, ps: Packages, x: (string, seq<string>))
    ensures RelativizePkgs(base, ps + [x]) == RelativizePkgs(base, ps) + ScopeAll(PkgDir(base, x.0) + "/", x.1)
  {
    var q := ps + [x];
    assert q[..|q| - 1] == ps && q[|q| - 1] == x;
  }

  /** Relativising packages distributes over concatenation of the package list. */
  lemma {:induction false} RelativizePkgsAppend(base: string, a: Packages, b: Packages)
    ensures RelativizePkgs(base, a + b) == RelativizePkgs(base, a) + RelativizePkgs(base, b)
    decreases |b|
  {
    if b == [] {
      assert a + b == a;
    } else {
      RelativizePkgsAppend(base, a, b[..|b| - 1]);
      RelativizePkgsAppendStep(base, a, b);
    }
  }

  /** The inductive step of `RelativizePkgsAppend`: from the claim for all
      but the last package of `b` to the claim for `b`. */
  lemma RelativizePkgsAppendStep(base: string, a: Packages, b: Packages)
    requires b != []
    requires RelativizePkgs(base, a + b[..|b| - 1])
          == RelativizePkgs(base, a) + RelativizePkgs(base, b[..|b| - 1])
    ensures RelativizePkgs(base, a + b) == RelativizePkgs(base, a) + RelativizePkgs(base, b)
  {
    var n := |b| - 1;
    var tail := ScopeAll(PkgDir(base, b[n].0) + "/", b[n].1);
    var ra, rb := RelativizePkgs(base, a), RelativizePkgs(base, b[..n]);
    SplitLast(a, b);
    calc {
      RelativizePkgs(base, a + b);
      { RelativizePkgsSnoc(base, a + b[..n], b[n]); }
      (ra + rb) + tail;
      { ConcatAssoc(ra, rb, tail); }
      ra + (rb + tail);
      { RelativizePkgsSnoc(base, b[..n], b[n]); }
      ra + RelativizePkgs(base, b);
    }
  }

  /** `b` and `a + b` both end in the last element of `b`. */
  lemma SplitLast<T>(a: seq<T>, b: seq<T>)
    requires b != []
    ensures b == b[..|b| - 1] + [b[|b| - 1]]
    ensures a + b == (a + b[..|b| - 1]) + [b[|b| - 1]]
  {
  }

  lemma ConcatAssoc<T>(x: seq<T>, y: seq<T>, z: seq<T>)
    ensures (x + y) + z == x + (y + z)
  {
  }

  lemma {:induction false} PatternCountAppend(a: Packages, b: Packages)
    ensures PatternCount(a + b) == PatternCount(a) + PatternCount(b)
    decreases |b|
  {
    if b == [] {
      assert a + b == a;
    } else {
      var n := |b| - 1;
      assert (a + b)[..|a + b| - 1] == a + b[..n];
      PatternCountAppend(a, b[..n]);
    }
  }

  /** Where package `i`'s patterns start in the output of `RelativizePkgs`. */
  function Offset(pkgs: Packages, i: nat): nat
    requires i <= |pkgs|
  {
    PatternCount(pkgs[..i])
  }

  /** Output position `Offset(pkgs, i) + j` holds pattern `j` of package `i`,
      scoped under that package's directory. */
  lemma {:induction false} RelativizePkgsAt(base: string, pkgs: Packages, i: nat, j: nat)
    requires i < |pkgs| && j < |pkgs[i].1|
    ensures Offset(pkgs, i) + j < |RelativizePkgs(base, pkgs)|
    ensures RelativizePkgs(base, pkgs)[Offset(pkgs, i) + j]
         == Scope(PkgDir(base, pkgs[i].0) + "/", pkgs[i].1[j])
  {
    var a, m, c := pkgs[..i], [pkgs[i]], pkgs[i + 1..];
    assert pkgs == a + m + c;
    RelativizePkgsAppend(base, a + m, c);
    RelativizePkgsAppend(base, a, m);
    PatternCountAppend(a + m, c);
    PatternCountAppend(a, m);
    assert [] + m == m;
    assert RelativizePkgs(base, m) == RelativizePkgs(base, []) + ScopeAll(PkgDir(base, pkgs[i].0) + "/", pkgs[i].1);
  }

  /** Every output comes from some pattern of some package, in that package's directory. */
  lemma {:induction false} RelativizePkgsFrom(base: string, pkgs: Packages, k: nat)
    requires k < |RelativizePkgs(base, pkgs)|
    ensures exists i, j :: (0 <= i < |pkgs| && 0 <= j < |pkgs[i].1| &&
      RelativizePkgs(base, pkgs)[k] == Scope(PkgDir(base, pkgs[i].0) + "/", pkgs[i].1[j]))
    decreases |pkgs|
  {
    var n := |pkgs| - 1;
    var front := pkgs[..n];
    if k < |RelativizePkgs(base, front)| {
      RelativizePkgsFrom(base, front, k);
      var i, j :| 0 <= i < |front| && 0 <= j < |front[i].1| &&
        RelativizePkgs(base, front)[k] == Scope(PkgDir(base, front[i].0) + "/", front[i].1[j]);
      assert front[i] == pkgs[i];
    } else {
      var j := k - |RelativizePkgs(base, front)|;
      assert RelativizePkgs(base, pkgs)[k] == Scope(PkgDir(base, pkgs[n].0) + "/", pkgs[n].1[j]);
    }
  }

  /** `_pathToPkg(base, pkgs)`: one package directory per name, in order. */
  function PathToPkg(base: string, pkgs: seq<string>): (r: seq<string>)
    ensures |r| == |pkgs|
    ensures forall i :: 0 <= i < |pkgs| ==> r[i] == PkgDir(base, pkgs[i])
  {
    if pkgs == [] then []
    else PathToPkg(base, pkgs[..|pkgs| - 1]) + [PkgDir(base, pkgs[|pkgs| - 1])]
  }

  /** Package directories lie inside `base`. */
  lemma PathToPkgUnderBase(base: string, pkgs: seq<string>)
    requires !IsExclusion(base)
    ensures forall p :: p in PathToPkg(base, pkgs) ==> base + "/" <= Positive(p)
  {
  }

  /** Every pattern `_relativizePkgs` produces, stripped of its marker, lies
      inside one of the directories `_pathToPkg` yields for the same packages. */
  lemma RelativizedPkgsLieUnderPkgDirs(base: string, pkgs: Packages, k: nat)
    requires !IsExclusion(base)
    requires k < |RelativizePkgs(base, pkgs)|
    ensures exists i :: (0 <= i < |pkgs| &&
      PathToPkg(base, Keys(pkgs))[i] + "/" <= Positive(RelativizePkgs(base, pkgs)[k]))
  {
    RelativizePkgsFrom(base, pkgs, k);
    var i, j :| 0 <= i < |pkgs| && 0 <= j < |pkgs[i].1| &&
      RelativizePkgs(base, pkgs)[k] == Scope(PkgDir(base, pkgs[i].0) + "/", pkgs[i].1[j]);
    var prefix := PkgDir(base, pkgs[i].0) + "/";
    assert !IsExclusion(prefix);
    assert Positive(RelativizePkgs(base, pkgs)[k]) == prefix + Positive(pkgs[i].1[j]);
    assert PathToPkg(base, Keys(pkgs))[i] + "/" == prefix;
  }
}

=== FILE: js.dfy ===
/** The few JavaScript value rules the gulp tasks rely on: optional string
    arguments, the truthiness test behind `x || null` and `x ? a : b`, and
    path joining (taken as plain `/`-concatenation, without normalisation). */
module Js {
  import opened Wrappers

  /** A string argument is truthy when it is present and not empty. */
  predicate Truthy(o: Option<string>) {
    o.Some? && o.value != ""
  }

  /** `x || null`: an empty string counts as absent. */
  function OrNull(o: Option<string>): (r: Option<string>)
    ensures r.Some? <==> Truthy(o)
    ensures r.Some? ==> r == o && r.value != ""
  {
    if Truthy(o) then o else None
  }

  /** `x || fallback` for a string argument. */
  function OrDefault(o: Option<string>, fallback: string): string {
    if Truthy(o) then o.value else fallback
  }

  /** A template-literal interpolation of an optional string: null prints as "null". */
  function Interpolate(o: Option<string>): string {
    if o.Some? then o.value else "null"
  }

  /** Joining two path segments with a separator. */
  function Join(a: string, b: string): string {
    a + "/" + b
  }
}

=== FILE: manifests.dfy ===
/** package.json manifests and the dependency merge of tasks/bundle.js
    `_mergeDeps`: each embedded package's `dependencies` is overlaid onto the
    project's, that package's own key is deleted after its overlay, and
    `devDependencies` is dropped at the end. */
module Manifests {
  import opened Wrappers
  import opened Globs

  /** A dependency map: package name to version constraint. */
  type Deps = map<string, string>

  /** The top-level fields of a package.json. `others` holds every other
      top-level field by name, its value kept as opaque JSON text. */
  datatype PackageJson = PackageJson(
    dependencies: Option<Deps>,
    devDependencies: Option<Deps>,
    scripts: Option<Deps>,
    others: map<string, string>)

  /** Names of the fields the tasks read or delete. */
  const NamedFields: set<string> := {"dependencies", "devDependencies", "scripts"}

  /** Each top-level field is held once: the named fields are never among `others`. */
  predicate WellFormed(m: PackageJson) {
    m.others.Keys !! NamedFields
  }

  /** A package.json whose fields are each held in exactly one place. */
  type Manifest = m: PackageJson | WellFormed(m)
    witness PackageJson(None, None, None, map[])

  /** The manifests of the installed packages, read from
      `./node_modules/<pkg>/package.json`: a name that is not a key stands for
      a file that cannot be read or parsed (the read throws); `None` is a
      manifest without a `dependencies` field. */
  type ManifestReads = map<string, Option<Deps>>

  datatype MergeError =
    | ManifestReadError(pkg: string)
      // the readFileSync / JSON.parse throw for that package's manifest
    | MissingDependencies
      // the TypeError of `delete pkgInfo.dependencies[pkg]` on an absent map

  function Lookup(d: Deps, k: string): Option<string> {
    if k in d then Some(d[k]) else None
  }

  /** True when `pkg`'s manifest declares a dependency on `k`. */
  predicate Declares(installed: ManifestReads, pkg: string, k: string) {
    pkg in installed && installed[pkg].Some? && k in installed[pkg].value
  }

  /** Every embedded package has a readable manifest. */
  predicate AllRead(pkgs: Packages, installed: ManifestReads) {
    forall i :: 0 <= i < |pkgs| ==> pkgs[i].0 in installed
  }

  /** One iteration of the merge loop: `_.assign(deps, declared)` (a missing
      `dependencies` field assigns nothing), then `delete deps[pkg]`. */
  function MergeStep(deps: Deps, pkg: string, declared: Option<Deps>): (r: Deps)
    ensures pkg !in r
    ensures forall k :: k != pkg && declared.Some? && k in declared.value ==>
      k in r && r[k] == declared.value[k]
    ensures forall k :: k != pkg && !(declared.Some? && k in declared.value) ==>
      Lookup(r, k) == Lookup(deps, k)
  {
    (if declared.Some? then deps + declared.value else deps) - {pkg}
  }

  /** The loop over the embedded packages in key order. The first unreadable
      manifest aborts; an absent project `dependencies` map aborts at the
      first deletion. */
  function MergeLoop(deps: Option<Deps>, pkgs: Packages, installed: ManifestReads)
    : (r: Result<Option<Deps>, MergeError>)
    ensures r.Success? <==> pkgs == [] || (deps.Some? && AllRead(pkgs, installed))
    ensures r.Success? ==> (r.value.Some? <==> deps.Some?)
    ensures r.Success? && pkgs != [] ==> r.value.Some? && pkgs[|pkgs| - 1].0 !in r.value.value
    ensures r.Failure? && r.error.ManifestReadError? ==>
      exists i :: 0 <= i < |pkgs| && pkgs[i].0 == r.error.pkg && pkgs[i].0 !in installed &&
        AllRead(pkgs[..i], installed) && (deps.Some? || i == 0)
    ensures r.Failure? && r.error.MissingDependencies? ==>
      deps.None? && pkgs != [] && pkgs[0].0 in installed
    decreases |pkgs|
  {
    if pkgs == [] then Success(deps)
    else
      var pkg := pkgs[0].0;
      if pkg !in installed then
        assert AllRead(pkgs[..0], installed);
        Failure(ManifestReadError(pkg))
      else if deps.None? then Failure(MissingDependencies)
      else
        var r := MergeLoop(Some(MergeStep(deps.value, pkg, installed[pkg])), pkgs[1..], installed);
        assert AllRead(pkgs, installed) <==> AllRead(pkgs[1..], installed) by {
          if AllRead(pkgs[1..], installed) {
            forall i | 0 <= i < |pkgs| ensures pkgs[i].0 in installed {
              if i > 0 { assert pkgs[i] == pkgs[1..][i - 1]; }
            }
          }
        }
        if r.Failure? && r.error.ManifestReadError? then
          var i :| 0 <= i < |pkgs[1..]| && pkgs[1..][i].0 == r.error.pkg &&
            pkgs[1..][i].0 !in installed && AllRead(pkgs[1..][..i], installed);
          assert pkgs[1..][..i] == pkgs[1..i + 1];
          assert AllRead(pkgs[..i + 1], installed) by {
            forall j | 0 <= j < i + 1 ensures pkgs[j].0 in installed {
              if j > 0 { assert pkgs[j] == pkgs[1..][..i][j - 1]; }
            }
          }
          r
        else if r.Success? && |pkgs| == 1 then
          r
        else
          assert r.Success? ==> pkgs[1..][|pkgs[1..]| - 1] == pkgs[|pkgs| - 1];
          r
  }

  /** `_mergeDeps(pkgInfo, pkgs)`: the merged dependencies, no
      `devDependencies`, every other field unchanged. */
  function MergeDeps(m: Manifest, pkgs: Packages, installed: ManifestReads)
    : (r: Result<Manifest, MergeError>)
    ensures r.Success? <==> pkgs == [] || (m.dependencies.Some? && AllRead(pkgs, installed))
    ensures r.Success? ==> r.value.devDependencies.None? && "devDependencies" !in r.value.others
    ensures r.Success? ==> r.value.scripts == m.scripts && r.value.others == m.others
    ensures r.Success? ==> (r.value.dependencies.Some? <==> m.dependencies.Some?)
    ensures pkgs == [] ==> r == Success(m.(devDependencies := None))
    ensures r.Failure? && r.error.ManifestReadError? ==>
      exists i :: 0 <= i < |pkgs| && pkgs[i].0 == r.error.pkg && pkgs[i].0 !in installed &&
        AllRead(pkgs[..i], installed) && (m.dependencies.Some? || i == 0)
    ensures r.Failure? && r.error.MissingDependencies? ==>
      m.dependencies.None? && pkgs[0].0 in installed
  {
    var deps :- MergeLoop(m.dependencies, pkgs, installed);
    Success(m.(dependencies := deps, devDependencies := None))
  }

  /** Reference reading of the merge, scanning the packages backwards: a key's
      final value is decided by the last package that touches it. Within one
      package the deletion of its own key comes after its overlay. */
  function LastWrite(orig: Deps, pkgs: Packages, installed: ManifestReads, k: string): Option<string>
    requires AllRead(pkgs, installed)
  {
    if pkgs == [] then Lookup(orig, k)
    else
      var pkg := pkgs[|pkgs| - 1].0;
      if k == pkg then None
      else if Declares(installed, pkg, k) then Some(installed[pkg].value[k])
      else LastWrite(orig, pkgs[..|pkgs| - 1], installed, k)
  }

  lemma {:induction false} MergeLoopSnoc(d: Deps, ps: Packages, x: (string, seq<string>), installed: ManifestReads)
    requires AllRead(ps, installed) && x.0 in installed
    ensures MergeLoop(Some(d), ps + [x], installed)
         == Success(Some(MergeStep(MergeLoop(Some(d), ps, installed).value.value, x.0, installed[x.0])))
    decreases |ps|
  {
    if ps == [] {
      assert [] + [x] == [x];
      assert [x][1..] == [];
    } else {
      var d' := MergeStep(d, ps[0].0, installed[ps[0].0]);
      assert (ps + [x])[0] == ps[0];
      assert (ps + [x])[1..] == ps[1..] + [x];
      assert AllRead(ps[1..], installed) by {
        forall i | 0 <= i < |ps[1..]| ensures ps[1..][i].0 in installed {
          assert ps[1..][i] == ps[i + 1];
        }
      }
      MergeLoopSnoc(d', ps[1..], x, installed);
    }
  }

  /** The merge loop agrees with the backward reading on every key. */
  lemma {:induction false} MergeLoopMatchesLastWrite(d: Deps, pkgs: Packages, installed: ManifestReads, k: string)
    requires AllRead(pkgs, installed)
    ensures MergeLoop(Some(d), pkgs, installed).Success?
    ensures Lookup(MergeLoop(Some(d), pkgs, installed).value.value, k) == LastWrite(d, pkgs, installed, k)
    decreases |pkgs|
  {
    if pkgs != [] {
      var n := |pkgs| - 1;
      assert pkgs[..n] + [pkgs[n]] == pkgs;
      assert AllRead(pkgs[..n], installed) by {
        forall i | 0 <= i < n ensures pkgs[..n][i].0 in installed {
          assert pkgs[..n][i] == pkgs[i];
        }
      }
      MergeLoopSnoc(d, pkgs[..n], pkgs[n], installed);
      MergeLoopMatchesLastWrite(d, pkgs[..n], installed, k);
    }
  }

  /** With a `dependencies` map and readable manifests, the merged map holds
      exactly the keys the backward reading gives, with those values. */
  lemma MergeDepsDependencies(m: Manifest, pkgs: Packages, installed: ManifestReads)
    requires m.dependencies.Some? && AllRead(pkgs, installed)
    ensures MergeDeps(m, pkgs, installed).Success?
    ensures forall k :: Lookup(MergeDeps(m, pkgs, installed).value.dependencies.value, k)
                     == LastWrite(m.dependencies.value, pkgs, installed, k)
  {
    forall k ensures Lookup(MergeDeps(m, pkgs, installed).value.dependencies.value, k)
                  == LastWrite(m.dependencies.value, pkgs, installed, k) {
      MergeLoopMatchesLastWrite(m.dependencies.value, pkgs, installed, k);
    }
  }

  /** True when package entry `p` overlays or deletes key `k`. */
  predicate Touches(installed: ManifestReads, p: (string, seq<string>), k: string) {
    k == p.0 || Declares(installed, p.0, k)
  }

  /** Packages after position `i` that leave `k` alone do not change its final value. */
  lemma {:induction false} LastWriteSkipsUntouched(orig: Deps, pkgs: Packages, installed: ManifestReads, k: string, i: nat)
    requires AllRead(pkgs, installed) && i <= |pkgs|
    requires forall j :: i <= j < |pkgs| ==> !Touches(installed, pkgs[j], k)
    ensures AllRead(pkgs[..i], installed)
    ensures LastWrite(orig, pkgs, installed, k) == LastWrite(orig, pkgs[..i], installed, k)
    decreases |pkgs|
  {
    assert forall j :: 0 <= j < i ==> pkgs[..i][j] == pkgs[j];
    if i < |pkgs| {
      var n := |pkgs| - 1;
      assert !Touches(installed, pkgs[n], k);
      assert forall j :: 0 <= j < n ==> pkgs[..n][j] == pkgs[j];
      LastWriteSkipsUntouched(orig, pkgs[..n], installed, k, i);
      assert pkgs[..n][..i] == pkgs[..i];
    } else {
      assert pkgs[..i] == pkgs;
    }
  }

  /** On a collision the embedded version wins: a key declared by package `i`
      that no later package overlays or deletes (and that is not `i` itself)
      ends with package `i`'s version. */
  lemma MergeDepsEmbeddedVersionWins(m: Manifest, pkgs: Packages, installed: ManifestReads, i: nat, k: string)
    requires m.dependencies.Some? && AllRead(pkgs, installed)
    requires i < |pkgs| && Declares(installed, pkgs[i].0, k) && k != pkgs[i].0
    requires forall j :: i < j < |pkgs| ==> !Touches(installed, pkgs[j], k)
    ensures MergeDeps(m, pkgs, installed).Success?
    ensures Lookup(MergeDeps(m, pkgs, installed).value.dependencies.value, k)
         == Some(installed[pkgs[i].0].value[k])
  {
    MergeDepsDependencies(m, pkgs, installed);
    LastWriteSkipsUntouched(m.dependencies.value, pkgs, installed, k, i + 1);
    assert pkgs[..i + 1][..i] == pkgs[..i];
  }

  /** A key no embedded package declares or names keeps its original entry. */
  lemma MergeDepsUntouchedKeys(m: Manifest, pkgs: Packages, installed: ManifestReads, k: string)
    requires m.dependencies.Some? && AllRead(pkgs, installed)
    requires forall j :: 0 <= j < |pkgs| ==> !Touches(installed, pkgs[j], k)
    ensures MergeDeps(m, pkgs, installed).Success?
    ensures Lookup(MergeDeps(m, pkgs, installed).value.dependencies.value, k)
         == Lookup(m.dependencies.value, k)
  {
    MergeDepsDependencies(m, pkgs, installed);
    LastWriteSkipsUntouched(m.dependencies.value, pkgs, installed, k, 0);
  }

  /** An embedded package is absent from the result unless a LATER embedded
      package declares it as a dependency. */
  lemma {:induction false} LastWriteDropsPackage(orig: Deps, pkgs: Packages, installed: ManifestReads, i: nat)
    requires AllRead(pkgs, installed) && i < |pkgs|
    requires forall j :: i < j < |pkgs| ==> !Declares(installed, pkgs[j].0, pkgs[i].0)
    ensures LastWrite(orig, pkgs, installed, pkgs[i].0) == None
    decreases |pkgs|
  {
    var n := |pkgs| - 1;
    if i < n && pkgs[i].0 != pkgs[n].0 {
      assert forall j :: 0 <= j < n ==> pkgs[..n][j] == pkgs[j];
      LastWriteDropsPackage(orig, pkgs[..n], installed, i);
    }
  }

  lemma MergeDepsDropsPackage(m: Manifest, pkgs: Packages, installed: ManifestReads, i: nat)
    requires m.dependencies.Some? && AllRead(pkgs, installed) && i < |pkgs|
    requires forall j :: i < j < |pkgs| ==> !Declares(installed, pkgs[j].0, pkgs[i].0)
    ensures MergeDeps(m, pkgs, installed).Success?
    ensures pkgs[i].0 !in MergeDeps(m, pkgs, installed).value.dependencies.value
  {
    MergeDepsDependencies(m, pkgs, installed);
    LastWriteDropsPackage(m.dependencies.value, pkgs, installed, i);
    assert Lookup(MergeDeps(m, pkgs, installed).value.dependencies.value, pkgs[i].0) == None;
  }

  /** The deletion is per iteration, so an embedded package comes back when a
      later one depends on it: embedding `y` then `z`, where `z` depends on
      `y`, leaves `y` in the merged dependencies. */
  lemma MergeDepsReintroducesEarlierPackage()
    ensures var m: Manifest := PackageJson(Some(map[]), None, None, map[]);
            var pkgs := [("y", ["**/*.js"]), ("z", ["**/*.js"])];
            var installed := map["y" := Some(map["w" := "2.0.0"]), "z" := Some(map["y" := "1.0.0"])];
            && MergeDeps(m, pkgs, installed).Success?
            && MergeDeps(m, pkgs, installed).value.dependencies
               == Some(map["w" := "2.0.0", "y" := "1.0.0"])
  {
    var installed := map["y" := Some(map["w" := "2.0.0"]), "z" := Some(map["y" := "1.0.0"])];
    var pkgs := [("y", ["**/*.js"]), ("z", ["**/*.js"])];
    var s1 := MergeStep(map[], "y", installed["y"]);
    assert s1 == map["w" := "2.0.0"];
    var s2 := MergeStep(s1, "z", installed["z"]);
    assert s2 == map["w" := "2.0.0", "y" := "1.0.0"];
    assert pkgs[1..][1..] == [];
  }
}

=== FILE: npm.dfy ===
/** The `npm(opts)` task set of tasks/npm.js: namespaced task names, the
    package.json fix-up for publishing, the output directory and the
    `npm-pack` stage order. */
module Npm {
  import opened Wrappers
  import opened Js
  import Manifests

  datatype NpmOptions = NpmOptions(
    buildDir: string,
    namespace: Option<string>,
    sources: seq<string>,
    meta: seq<string>)

  /** `taskName(n)`: prefixed with `namespace-` when a (non-empty) namespace
      is given. */
  function TaskName(namespace: Option<string>, n: string): (r: string)
    ensures |r| >= |n| && r[|r| - |n|..] == n
    ensures !Truthy(namespace) ==> r == n
    ensures Truthy(namespace) ==> namespace.value + "-" <= r && |r| == |namespace.value| + 1 + |n|
  {
    var ns := OrNull(namespace);
    if ns.Some? then ns.value + "-" + n else n
  }

  /** Inverse of `TaskName`: strip the namespace prefix, if it is there. */
  function StripNamespace(namespace: Option<string>, r: string): Option<string> {
    if !Truthy(namespace) then Some(r)
    else
      var prefix := namespace.value + "-";
      if prefix <= r then Some(r[|prefix|..]) else None
  }

  lemma TaskNameRoundTrip(namespace: Option<string>, n: string)
    ensures StripNamespace(namespace, TaskName(namespace, n)) == Some(n)
  {
  }

  /** Distinct stage names stay distinct under any namespace. */
  lemma TaskNameInjective(namespace: Option<string>, a: string, b: string)
    requires TaskName(namespace, a) == TaskName(namespace, b)
    ensures a == b
  {
  }

  /** `_fixPackageJsonForNpm`: drop `scripts`, keep everything else. */
  function FixPackageJsonForNpm(m: Manifests.Manifest): (r: Manifests.Manifest)
    ensures r.scripts.None? && "scripts" !in r.others
    ensures r.dependencies == m.dependencies
    ensures r.devDependencies == m.devDependencies
    ensures r.others == m.others
  {
    m.(scripts := None)
  }

  lemma FixPackageJsonForNpmIdempotent(m: Manifests.Manifest)
    ensures FixPackageJsonForNpm(FixPackageJsonForNpm(m)) == FixPackageJsonForNpm(m)
    ensures m.scripts.None? ==> FixPackageJsonForNpm(m) == m
  {
  }

  /** `buildDir/npm-package`. */
  function OutputDir(buildDir: string): string {
    Join(buildDir, "npm-package")
  }

  datatype Stage = Clean | Transpile | CopyMeta | FixPackageInfo

  function StageName(s: Stage): string {
    match s
    case Clean => "npm-pack:clean"
    case Transpile => "npm-pack:transpile"
    case CopyMeta => "npm-pack:copyMeta"
    case FixPackageInfo => "npm-pack:fixPackageInfo"
  }

  const PackStages: seq<Stage> := [Clean, Transpile, CopyMeta, FixPackageInfo]

  /** The name of the `npm-pack` entry task. */
  function PackTaskName(namespace: Option<string>): string {
    TaskName(namespace, "npm-pack")
  }

  /** The stage names are pairwise different, and different from `npm-pack`. */
  lemma StageNamesDistinct(s: Stage, t: Stage)
    ensures StageName(s) == StageName(t) ==> s == t
    ensures StageName(s) != "npm-pack"
  {
  }

  /** The five registered names are pairwise different under every namespace. */
  lemma PackTaskNamesDistinct(namespace: Option<string>, s: Stage, t: Stage)
    requires s != t
    ensures TaskName(namespace, StageName(s)) != TaskName(namespace, StageName(t))
    ensures TaskName(namespace, StageName(s)) != PackTaskName(namespace)
  {
  }

  /** The four namespaced stage names, in `npm-pack` order. */
  ghost predicate IsPackList(namespace: Option<string>, r: seq<string>) {
    r == [
      TaskName(namespace, StageName(Clean)), TaskName(namespace, StageName(Transpile)),
      TaskName(namespace, StageName(CopyMeta)), TaskName(namespace, StageName(FixPackageInfo))]
  }

  /** Each entry of the list is its stage's name, namespaced. */
  lemma PackListAt(namespace: Option<string>, r: seq<string>)
    requires IsPackList(namespace, r)
    ensures |r| == |PackStages|
    ensures forall i :: 0 <= i < |r| ==> r[i] == TaskName(namespace, StageName(PackStages[i]))
  {
  }

  /** Stripping the namespace from each entry gives back its stage's name. */
  lemma PackListStrips(namespace: Option<string>, r: seq<string>)
    requires |r| == |PackStages|
    requires forall i :: 0 <= i < |r| ==> r[i] == TaskName(namespace, StageName(PackStages[i]))
    ensures forall i :: 0 <= i < |r| ==> StripNamespace(namespace, r[i]) == Some(StageName(PackStages[i]))
  {
    forall i | 0 <= i < |r| ensures StripNamespace(namespace, r[i]) == Some(StageName(PackStages[i])) {
      TaskNameRoundTrip(namespace, StageName(PackStages[i]));
    }
  }

  /** Different stages keep different namespaced names. */
  lemma PackListDistinct(namespace: Option<string>, r: seq<string>)
    requires |r| == |PackStages|
    requires forall i :: 0 <= i < |r| ==> r[i] == TaskName(namespace, StageName(PackStages[i]))
    ensures forall i, j :: 0 <= i < j < |r| ==> r[i] != r[j]
  {
    forall i, j | 0 <= i < j < |r| ensures r[i] != r[j] {
      PackTaskNamesDistinct(namespace, PackStages[i], PackStages[j]);
    }
  }

  /** No stage's namespaced name is the entry task's name. */
  lemma PackListAvoidsEntry(namespace: Option<string>, r: seq<string>)
    requires |r| == |PackStages|
    requires forall i :: 0 <= i < |r| ==> r[i] == TaskName(namespace, StageName(PackStages[i]))
    ensures forall i :: 0 <= i < |r| ==> r[i] != PackTaskName(namespace)
  {
    forall i | 0 <= i < |r| ensures r[i] != PackTaskName(namespace) {
      var s := PackStages[i];
      PackTaskNamesDistinct(namespace, s, if s == Clean then Transpile else Clean);
    }
  }

  /** The task names `npm-pack` runs: clean, transpile, copyMeta,
      fixPackageInfo, in that order, each namespaced, all different, and
      none of them the entry task itself. */
  function PackSequence(namespace: Option<string>): (r: seq<string>)
    ensures |r| == |PackStages|
    ensures r == [
      TaskName(namespace, "npm-pack:clean"), TaskName(namespace, "npm-pack:transpile"),
      TaskName(namespace, "npm-pack:copyMeta"), TaskName(namespace, "npm-pack:fixPackageInfo")]
    ensures forall i, j :: 0 <= i < j < |r| ==> r[i] != r[j]
    ensures forall i :: 0 <= i < |r| ==> StripNamespace(namespace, r[i]) == Some(StageName(PackStages[i]))
    ensures forall i :: 0 <= i < |r| ==> r[i] != PackTaskName(namespace)
  {
    var r := [
      TaskName(namespace, StageName(Clean)), TaskName(namespace, StageName(Transpile)),
      TaskName(namespace, StageName(CopyMeta)), TaskName(namespace, StageName(FixPackageInfo))];
    PackListAt(namespace, r);
    PackListStrips(namespace, r);
    PackListDistinct(namespace, r);
    PackListAvoidsEntry(namespace, r);
    r
  }

  datatype Action =
    | Delete(paths: seq<string>)
      // del(paths)
    | Babel(globs: seq<string>, base: string, presets: seq<string>, dest: string)
      // gulp.src(globs, {base}).pipe(babel({presets})).pipe(gulp.dest(dest))
    | Copy(globs: seq<string>, base: string, dest: string)
      // gulp.src(globs, {base}).pipe(gulp.dest(dest))
    | WriteManifest(path: string, contents: Manifests.Manifest)
      // fs.writeFileSync(path, JSON.stringify(contents))

  /** The directory an action writes into or deletes, and the file it writes. */
  function Target(a: Action): string {
    match a
    case Delete(paths) => if |paths| == 1 then paths[0] else ""
    case Babel(_, _, _, dest) => dest
    case Copy(_, _, dest) => dest
    case WriteManifest(path, _) => path
  }

  /** The action each stage runs; `project` is the project's package.json.
      Only `clean` deletes, and it deletes exactly the output directory;
      `transpile` compiles the sources with the `es2015` preset and
      `copyMeta` copies the meta files, both from the project root into the
      output directory; only `fixPackageInfo` writes a manifest, script-free,
      directly inside it. */
  function Plan(opts: NpmOptions, project: Manifests.Manifest, s: Stage): (r: Action)
    ensures r.Delete? <==> s == Clean
    ensures r.Delete? ==> r.paths == [OutputDir(opts.buildDir)]
    ensures r.WriteManifest? <==> s == FixPackageInfo
    ensures r.WriteManifest? ==>
      && r.path == OutputDir(opts.buildDir) + "/package.json"
      && r.contents.scripts.None?
      && r.contents.dependencies == project.dependencies
      && r.contents.devDependencies == project.devDependencies
      && r.contents.others == project.others
    ensures r.Babel? <==> s == Transpile
    ensures r.Copy? <==> s == CopyMeta
    ensures (r.Babel? || r.Copy?) ==> r.dest == OutputDir(opts.buildDir) && r.base == "./"
    ensures r.Babel? ==> r.globs == opts.sources && r.presets == ["es2015"]
    ensures r.Copy? ==> r.globs == opts.meta
    ensures s != Clean ==> OutputDir(opts.buildDir) + "/" <= Target(r) || Target(r) == OutputDir(opts.buildDir)
  {
    var out := OutputDir(opts.buildDir);
    match s
    case Clean => Delete([out])
    case Transpile => Babel(opts.sources, "./", ["es2015"], out)
    case CopyMeta => Copy(opts.meta, "./", out)
    case FixPackageInfo => WriteManifest(Join(out, "package.json"), FixPackageJsonForNpm(project))
  }
}

=== FILE: runsequence.dfy ===
/** An abstract stand-in for `runSequence`: the named stages run one after
    another and the first failing stage stops the sequence. Which stages fail
    is an input; what a stage does is not modelled here. */
module RunSequence {
  import opened Wrappers

  /** The stages that ran, in order, and the one that failed, if any (it is
      the last one that ran). */
  datatype Run<T> = Run(executed: seq<T>, failed: Option<T>)

  function Execute<T(==)>(stages: seq<T>, failing: set<T>): (r: Run<T>)
    ensures r.executed <= stages
    ensures r.failed.None? <==> forall i :: 0 <= i < |stages| ==> stages[i] !in failing
    ensures r.failed.None? ==> r.executed == stages
    ensures r.failed.Some? ==>
      && |r.executed| > 0
      && r.executed[|r.executed| - 1] == r.failed.value
      && r.failed.value in failing
      && forall i :: 0 <= i < |r.executed| - 1 ==> r.executed[i] !in failing
  {
    if stages == [] then Run([], None)
    else if stages[0] in failing then Run([stages[0]], Some(stages[0]))
    else
      var rest := Execute(stages[1..], failing);
      assert forall i :: 1 <= i < |stages| ==> stages[i] == stages[1..][i - 1];
      Run([stages[0]] + rest.executed, rest.failed)
  }

  /** A failure at position `i` means nothing after position `i` runs. */
  lemma {:induction false} NothingRunsAfterFailure<T>(stages: seq<T>, failing: set<T>, i: nat, j: nat)
    requires i < j < |stages| && stages[i] in failing
    requires forall k :: 0 <= k < j ==> stages[k] != stages[j]
    ensures stages[j] !in Execute(stages, failing).executed
  {
    if stages[0] !in failing {
      var rest := stages[1..];
      assert rest[i - 1] == stages[i] && rest[j - 1] == stages[j];
      assert forall k :: 0 <= k < j - 1 ==> rest[k] == stages[k + 1];
      NothingRunsAfterFailure(rest, failing, i - 1, j - 1);
    }
  }

  /** Marking a stage that the sequence does not contain as failing changes
      nothing about the run. */
  lemma {:induction false} ExecuteIgnoresAbsent<T>(stages: seq<T>, failing: set<T>, x: T)
    requires x !in stages
    ensures Execute(stages, failing + {x}) == Execute(stages, failing)
  {
    if stages != [] {
      assert stages == [stages[0]] + stages[1..];
      ExecuteIgnoresAbsent(stages[1..], failing, x);
    }
  }
}

=== FILE: wrappers.dfy ===
/** Failure-compatible Option and Result, used wherever the JavaScript code
    has an absent value (`undefined`/`null`) or throws. */
module Wrappers {

  datatype Option<+T> = None | Some(value: T)

  datatype Result<+R, +E> = Success(value: R) | Failure(error: E) {

    predicate IsFailure() {
      Failure?
    }

    function PropagateFailure<U>(): Result<U, E>
      requires Failure?
    {
      Failure(error)
    }

    function Extract(): R
      requires Success?
    {
      value
    }
  }
}
